=== FILE: README.md ===
# Task tracker service: orchestration model

This project models `TaskServiceImpl`, the service of the reactive task tracker
that lists, reads, creates, updates and deletes tasks and adds or removes their
observers. A task refers to users by id: one author, one assignee and a set of
observers. Every read and every write except delete ends by *hydrating* the task
(`fetchChildren`), which resolves those ids against the user repository.

The model is sequential and functional:

- `Entities` holds the data. `Task` holds only ids. `HydratedTask` holds the
  resolved users. `Store` is the two repositories as maps from id to record.
  `Error` is either `NotFound(kind, id)`, where the kind says which lookup
  failed, or `NullId(kind)`, for a null id the repository refuses.
- `Repository` holds the repository calls as map operations: find, find-all-by-id,
  save (an upsert under the task's id) and delete.
- `TaskService` holds the eight operations. A read returns a `Result`. A write
  returns a `Response`: the store after the call together with the `Result`.
  Create, update, add-observer and remove-observer are each split into a
  validation step and a shared `Persist` step. If validation fails, `Persist`
  returns before the save. Otherwise it saves the task and then hydrates it.
  Delete looks the task up and deletes it, with no hydration.
- `TaskServiceProperties` holds lemmas that relate several calls.

Two store invariants are used. `WellFormed`: every record is stored under its
own id. `Consistent`: in addition, every stored task's author and assignee
exist. All five write operations preserve both invariants.

Reactor runs a pipeline's lookups concurrently. The model checks them in the
order the `zipWith` chain composes them, and the first failing lookup gives the
error:

- `update`: the task, then the author, then the assignee.
- `create`: the author, then the assignee.
- `addObserver` and `removeObserver`: the task, then the observer user, then (for
  removal) membership.
- hydration: the author, then the assignee.

`findAll` hydrates the tasks in an unspecified order. If several tasks fail,
any one of their errors may be reported.

The model follows the code as written in three places:

- `create` looks up the assignee with the request's author id and stores that
  user's id as the assignee. The requested assignee id is never read
  (`CreateIgnoresRequestedAssignee`), and a created task's assignee is its
  author.
- Validation always runs before the save. Hydration, however, runs after the
  save. An `update` or observer change on a task whose stored author or assignee
  no longer exists, and that the request does not replace, therefore saves its
  changes and then reports `NotFound` (`UpdateCommitsBeforeHydrating`). A write is not all-or-nothing once
  validation has passed.
- `removeObserver` fails when the observer is not a member. `addObserver` is
  idempotent. Removal is therefore not idempotent
  (`RemoveObserverTwiceFails`).

## Model

| member | source | states |
|---|---|---|
| TaskService.FetchChildren | 7_Reactive_Programming/tasktracker/src/main/java/com/example/tasktracker/service/TaskServiceImpl.java:163-191 | hydration succeeds exactly when author and assignee exist; a missing author is reported before a missing assignee; the task is returned unchanged with the stored author and assignee records attached, and its observers are stored users |
| TaskService.FindAll | 7_Reactive_Programming/tasktracker/src/main/java/com/example/tasktracker/service/TaskServiceImpl.java:28-33 | the listing succeeds exactly when every stored task hydrates; on success it maps every task id to that task's hydration; a failure is the error of some task's hydration; in a consistent store it always succeeds |
| TaskService.FindById | 7_Reactive_Programming/tasktracker/src/main/java/com/example/tasktracker/service/TaskServiceImpl.java:35-42 | an absent id fails with NotFound for the task; success exactly when the task and its author and assignee exist; for a stored task the result, success or error, is the hydration of that stored task; in a consistent store, success exactly when the task exists |
| TaskService.Create | 7_Reactive_Programming/tasktracker/src/main/java/com/example/tasktracker/service/TaskServiceImpl.java:44-67 | a null or unknown author id fails and leaves the store unchanged; otherwise the saved task has the new id, the requested author as both author and assignee, no observers and the mapped fields, and it is added under the new id; the returned hydration has the requested author as author and assignee and no observers; users never change; both invariants are preserved |
| TaskService.Update | 7_Reactive_Programming/tasktracker/src/main/java/com/example/tasktracker/service/TaskServiceImpl.java:70-109 | a missing task, author or assignee (in that order) fails with no save; an omitted reference is not looked up and keeps its stored value; a supplied one replaces it; observers are kept; other tasks are unchanged; once validation passes the result, success or error, is the hydration of the saved task, observers included; success implies every supplied reference exists, and in a consistent store the converse holds |
| TaskService.DeleteById | 7_Reactive_Programming/tasktracker/src/main/java/com/example/tasktracker/service/TaskServiceImpl.java:111-119 | succeeds exactly when the task exists; an absent id fails with the store unchanged; a delete removes exactly that key; users never change |
| TaskService.AddObserver | 7_Reactive_Programming/tasktracker/src/main/java/com/example/tasktracker/service/TaskServiceImpl.java:121-138 | a missing task or user fails with the store unchanged; otherwise the observer id is added to that task's observer set and no other task changes; once validation passes the result, success or error, is the hydration of the saved task, whose observer ids and hydrated observers contain the added user; in a consistent store it succeeds exactly when both exist |
| TaskService.RemoveObserver | 7_Reactive_Programming/tasktracker/src/main/java/com/example/tasktracker/service/TaskServiceImpl.java:140-161 | a missing task or user, or an observer not in the task's set, fails with the store unchanged; a member is removed, the other observer ids are kept and no other task changes; once validation passes the result, success or error, is the hydration of the saved task, whose observer ids and hydrated observers no longer contain the removed user; in a consistent store it succeeds exactly when the task and user exist and the user is a member |
| TaskServiceProperties.FoundIdsExact | 7_Reactive_Programming/tasktracker/src/main/java/com/example/tasktracker/service/TaskServiceImpl.java:172-177 | the users found by id are exactly the stored users among the requested ids; missing ids are dropped |
| TaskServiceProperties.FetchChildrenResolves | 7_Reactive_Programming/tasktracker/src/main/java/com/example/tasktracker/service/TaskServiceImpl.java:163-191 | hydration resolves each reference to the user with that id; the observer ids are the requested ids that exist, a subset of the task's ids, and empty when the task has none |
| TaskServiceProperties.FetchChildrenComplete | 7_Reactive_Programming/tasktracker/src/main/java/com/example/tasktracker/service/TaskServiceImpl.java:172-189 | when every observer id exists, the hydrated observers carry exactly the task's observer ids |
| TaskServiceProperties.CreateIgnoresRequestedAssignee | 7_Reactive_Programming/tasktracker/src/main/java/com/example/tasktracker/service/TaskServiceImpl.java:51-62 | the result of create does not depend on the requested assignee id |
| TaskServiceProperties.CreateInsertsOne | 7_Reactive_Programming/tasktracker/src/main/java/com/example/tasktracker/service/TaskServiceImpl.java:55-64 | a create under a fresh id adds exactly one task and leaves every existing task unchanged |
| TaskServiceProperties.CreateThenFind | 7_Reactive_Programming/tasktracker/src/main/java/com/example/tasktracker/service/TaskServiceImpl.java:64-66 | reading the created task back returns what create returned |
| TaskServiceProperties.UpdateCommitsBeforeHydrating | 7_Reactive_Programming/tasktracker/src/main/java/com/example/tasktracker/service/TaskServiceImpl.java:101-108 | an update whose stored author is missing reports the missing author after its field changes are already saved |
| TaskServiceProperties.AddObserverIdempotent | 7_Reactive_Programming/tasktracker/src/main/java/com/example/tasktracker/service/TaskServiceImpl.java:131-137 | repeating an add observer call returns the same result and leaves the same store |
| TaskServiceProperties.AddThenRemoveRestores | 7_Reactive_Programming/tasktracker/src/main/java/com/example/tasktracker/service/TaskServiceImpl.java:131-158 | removing a newly added observer restores the original store |
| TaskServiceProperties.RemoveThenAddRestores | 7_Reactive_Programming/tasktracker/src/main/java/com/example/tasktracker/service/TaskServiceImpl.java:131-158 | adding back a removed observer restores the original store |
| TaskServiceProperties.RemoveObserverTwiceFails | 7_Reactive_Programming/tasktracker/src/main/java/com/example/tasktracker/service/TaskServiceImpl.java:150-158 | a second removal of the same observer fails because it is not a member, and it saves nothing |
| TaskServiceProperties.DeleteThenFindFails | 7_Reactive_Programming/tasktracker/src/main/java/com/example/tasktracker/service/TaskServiceImpl.java:111-119 | after a delete the task is neither found nor deletable |
| TaskServiceProperties.ConsistentReadsSucceed | 7_Reactive_Programming/tasktracker/src/main/java/com/example/tasktracker/service/TaskServiceImpl.java:35-42 | in a consistent store reading a stored task succeeds and resolves its own author and assignee |

## Left out

- Reactor scheduling (`Mono`, `Flux`, `zipWith`, `flatMap`): lookups run in a fixed order instead, and the error reported is the first failing lookup in that order. In the source, when several concurrent lookups fail, which error wins depends on timing.
- The order of `findAll` results: the listing is a map from task id to hydrated task.
- FindAll: the source's `Flux` may emit some hydrated tasks before it signals an error; the model reports only the error, because it returns the listing as a single value.
- Exception message strings. An error records the kind of lookup and the id that was looked up. The source's messages for an unknown observer user embed the task id instead; that is cosmetic.
- `TaskMapper`: its code is not part of this model. `requestToTask` and `update` are opaque functions over the non-reference fields. A created task is assumed to start with an empty observer set. `taskToResponse` is left out, and the operations return the hydrated task itself.
- The repository implementations: they are the two maps.
- Create: the id that `save` assigns to a new task is a parameter, and only a fresh id (one not already in the task map) models the source. With an id already in use, the model's save overwrites that task, which the source's store never does for a new entity.
- A null author id in a create request: the repository refuses a null id, and this is modelled as the distinct error `NullId`. The repository code is not part of this model.
- Null observer ids on a stored task, and the null-pointer failure of `addObserver` on such a task: observer ids are always a set. Hydration of an empty set gives no observers.
- Null author or assignee ids on a stored task: stored references are always strings.
- Store failures other than absence (connectivity, timeouts), and concurrent writes to one task (last write wins in the store).
- `NewsMapperDecorator` in the news service: it only forwards to collaborators whose code is not part of this model.

=== FILE: entities.dfy ===
/** The entities the task service works on, and the store they live in. */
module Entities {
  import opened Wrappers

  /** The non-reference fields of a record (name, description, status, profile
      data ...), field name to value. The service never looks inside them. */
  type Fields = map<string, string>

  /** A user. Only its existence and id matter to the service. */
  datatype User = User(id: string, profile: Fields)

  /** A task as persisted: ids only, never the resolved users. */
  datatype Task = Task(
    id: string,
    authorId: string,
    assigneeId: string,
    observerIds: set<string>,
    fields: Fields)

  /** A task with its references resolved: the transient `author`, `assignee`
      and `observers` fields set by `fetchChildren`. */
  datatype HydratedTask = HydratedTask(
    task: Task,
    author: User,
    assignee: User,
    observers: set<User>)

  /** `UpsertTaskRequest`: both references may be null (`None`). */
  datatype UpsertRequest = UpsertRequest(
    authorId: Option<string>,
    assigneeId: Option<string>,
    fields: Fields)

  /** `TaskMapper`, whose code is not part of this model: `requestToTask` and
      `update(request, task)` restricted to the non-reference fields. */
  datatype Mapper = Mapper(
    requestToFields: Fields -> Fields,
    update: (Fields, Fields) -> Fields)

  /** Which lookup failed; each names one `EntityNotFoundException` site. */
  datatype Kind =
    | TaskEntry       // the task id is not in the task repository
    | AuthorUser      // the author id is not in the user repository
    | AssigneeUser    // the assignee id is not in the user repository
    | ObserverUser    // the observer id is not in the user repository
    | ObserverEntry   // the observer is not among the task's observer ids

  datatype Error =
    | NotFound(kind: Kind, id: string)
    /** The repository refuses a null id before any lookup. */
    | NullId(kind: Kind)

  /** The durable state: the task and user repositories as two finite maps. */
  datatype Store = Store(tasks: map<string, Task>, users: map<string, User>)

  /** Every record is stored under its own id, as a repository keyed by id keeps it. */
  predicate UsersKeyed(users: map<string, User>) {
    forall k :: k in users ==> users[k].id == k
  }

  predicate WellFormed(s: Store) {
    && UsersKeyed(s.users)
    && (forall k :: k in s.tasks ==> s.tasks[k].id == k)
  }

  /** Every stored task's author and assignee exist, so hydrating it cannot fail. */
  predicate Consistent(s: Store) {
    && WellFormed(s)
    && (forall k :: k in s.tasks ==> s.tasks[k].authorId in s.users && s.tasks[k].assigneeId in s.users)
  }

  /** The ids of a set of users. */
  function Ids(us: set<User>): set<string> {
    set u | u in us :: u.id
  }
}

=== FILE: repository.dfy ===
/** `TaskRepository` and `UserRepository` as operations on the two maps of a `Store`. */
module Repository {
  import opened Wrappers
  import opened Entities

  /** `taskRepository.findById(id)` followed by `switchIfEmpty(Mono.error(...))`. */
  function FindTask(tasks: map<string, Task>, id: string): Result<Task, Error> {
    if id in tasks then Success(tasks[id]) else Failure(NotFound(TaskEntry, id))
  }

  /** `userRepository.findById(id)` followed by `switchIfEmpty(Mono.error(...))`,
      the error naming the role the user was looked up for. */
  function FindUser(users: map<string, User>, kind: Kind, id: string): Result<User, Error> {
    if id in users then Success(users[id]) else Failure(NotFound(kind, id))
  }

  /** `userRepository.findAllById(ids)`: the users found, missing ids dropped. */
  function FindAllById(users: map<string, User>, ids: set<string>): set<User> {
    set k | k in ids && k in users :: users[k]
  }

  /** `taskRepository.save(task)`: an upsert under the task's own id. */
  function Save(s: Store, t: Task): Store {
    s.(tasks := s.tasks[t.id := t])
  }

  /** `taskRepository.delete(task)`: removes the record with the task's id. */
  function Delete(s: Store, t: Task): Store {
    s.(tasks := s.tasks - {t.id})
  }
}

=== FILE: task_service.dfy ===
/** `TaskServiceImpl` as pure functions from a store (and arguments) to a new
    store and a result. Each pipeline runs its lookups in the order its
    `zipWith` chain composes them, so the first failing lookup is the error. */
module TaskService {
  import opened Wrappers
  import opened Entities
  import opened Repository

  /** The outcome of a write: the store after the call, and what the call emits.
      The store is returned on failure too, because a write saves before it
      hydrates and a failed hydration does not undo the save. */
  datatype Response<V> = Response(store: Store, result: Result<V, Error>)

  /** `fetchChildren`: resolve the author, then the assignee, then the observers.
      A missing author or assignee fails the hydration; missing observers are dropped. */
  function FetchChildren(users: map<string, User>, t: Task): (r: Result<HydratedTask, Error>)
    ensures r.Success? <==> t.authorId in users && t.assigneeId in users
    ensures t.authorId !in users ==> r == Failure(NotFound(AuthorUser, t.authorId))
    ensures t.authorId in users && t.assigneeId !in users ==> r == Failure(NotFound(AssigneeUser, t.assigneeId))
    ensures r.Success? ==> r.value.task == t
    ensures r.Success? ==> r.value.author == users[t.authorId] && r.value.assignee == users[t.assigneeId]
    ensures r.Success? ==> r.value.observers <= users.Values
  {
    var author :- FindUser(users, AuthorUser, t.authorId);
    var assignee :- FindUser(users, AssigneeUser, t.assigneeId);
    Success(HydratedTask(t, author, assignee, FindAllById(users, t.observerIds)))
  }

  /** The write half shared by create, update and the two observer operations: a validation failure
      returns before `save`; otherwise the task is saved and then hydrated. */
  function Persist(s: Store, validated: Result<Task, Error>): Response<HydratedTask> {
    match validated
    case Failure(e) => Response(s, Failure(e))
    case Success(t) =>
      var saved := Save(s, t);
      Response(saved, FetchChildren(saved.users, t))
  }

  /** `findAll`: hydrate every stored task; any failing hydration fails the whole
      listing. Which failing task is reported depends on scheduling, so the loop
      visits the tasks in an unspecified order; that choice is why this one
      operation is a method rather than a function. */
  method FindAll(s: Store) returns (r: Result<map<string, HydratedTask>, Error>)
    ensures r.Success? <==> forall k :: k in s.tasks ==> FetchChildren(s.users, s.tasks[k]).Success?
    ensures r.Success? ==> r.value.Keys == s.tasks.Keys
    ensures r.Success? ==> forall k :: k in r.value ==> FetchChildren(s.users, s.tasks[k]) == Success(r.value[k])
    ensures r.Failure? ==> exists k :: k in s.tasks && FetchChildren(s.users, s.tasks[k]) == Failure(r.error)
    ensures Consistent(s) ==> r.Success?
  {
    var pending := s.tasks.Keys;
    var done: map<string, HydratedTask> := map[];
    while pending != {}
      invariant pending <= s.tasks.Keys
      invariant done.Keys == s.tasks.Keys - pending
      invariant forall k :: k in done ==> FetchChildren(s.users, s.tasks[k]) == Success(done[k])
      decreases pending
    {
      var k :| k in pending;
      var h := FetchChildren(s.users, s.tasks[k]);
      if h.Failure? {
        return Failure(h.error);
      }
      done := done[k := h.value];
      pending := pending - {k};
    }
    return Success(done);
  }

  /** `findById`. */
  function FindById(s: Store, id: string): (r: Result<HydratedTask, Error>)
    ensures id !in s.tasks ==> r == Failure(NotFound(TaskEntry, id))
    ensures r.Success? <==> id in s.tasks && s.tasks[id].authorId in s.users && s.tasks[id].assigneeId in s.users
    ensures r.Success? && WellFormed(s) ==> r.value.task.id == id
    ensures id in s.tasks ==> r == FetchChildren(s.users, s.tasks[id])
    ensures Consistent(s) ==> (r.Success? <==> id in s.tasks)
  {
    var task :- FindTask(s.tasks, id);
    FetchChildren(s.users, task)
  }

  /** The validation half of `create`. Both lookups use the request's author id,
      so the stored assignee is always the author. */
  function ValidateCreate(s: Store, m: Mapper, request: UpsertRequest, newId: string): Result<Task, Error> {
    if request.authorId.None? then Failure(NullId(AuthorUser))
    else
      match (FindUser(s.users, AuthorUser, request.authorId.value),
             FindUser(s.users, AssigneeUser, request.authorId.value))
      case (Failure(e), _) => Failure(e)
      case (_, Failure(e)) => Failure(e)
      case (Success(author), Success(assignee)) =>
        Success(Task(newId, author.id, assignee.id, {}, m.requestToFields(request.fields)))
  }

  /** `create`; `newId` is the id the store assigns on save. */
  function Create(s: Store, m: Mapper, request: UpsertRequest, newId: string): (r: Response<HydratedTask>)
    ensures r.store.users == s.users
    ensures request.authorId.None? ==> r == Response(s, Failure(NullId(AuthorUser)))
    ensures request.authorId.Some? && request.authorId.value !in s.users ==>
              r == Response(s, Failure(NotFound(AuthorUser, request.authorId.value)))
    ensures r.result.Success? ==> request.authorId.Some? && request.authorId.value in s.users
    ensures UsersKeyed(s.users) ==>
              (r.result.Success? <==> request.authorId.Some? && request.authorId.value in s.users)
    ensures r.result.Success? && UsersKeyed(s.users) ==>
              && r.result.value.task == Task(newId, request.authorId.value, request.authorId.value, {},
                                             m.requestToFields(request.fields))
              && r.store.tasks == s.tasks[newId := r.result.value.task]
              && r.result.value.author.id == request.authorId.value
              && r.result.value.assignee.id == request.authorId.value
              && r.result.value.observers == {}
    ensures WellFormed(s) ==> WellFormed(r.store)
    ensures Consistent(s) ==> Consistent(r.store)
  {
    Persist(s, ValidateCreate(s, m, request, newId))
  }

  /** The id a reference has after `update`: the requested one when the request
      supplies it, the stored one otherwise. */
  function Resolved(stored: string, requested: Option<string>): string {
    if requested.Some? then requested.value else stored
  }

  /** The author step of `update`: looked up and set only when supplied. */
  function ResolveAuthor(users: map<string, User>, task: Task, requested: Option<string>): Result<Task, Error> {
    match requested
    case None => Success(task)
    case Some(id) =>
      var author :- FindUser(users, AuthorUser, id);
      Success(task.(authorId := author.id))
  }

  /** The assignee step of `update`: looked up and set only when supplied. */
  function ResolveAssignee(users: map<string, User>, task: Task, requested: Option<string>): Result<Task, Error> {
    match requested
    case None => Success(task)
    case Some(id) =>
      var assignee :- FindUser(users, AssigneeUser, id);
      Success(task.(assigneeId := assignee.id))
  }

  /** The validation half of `update`: the task, then the supplied author, then
      the supplied assignee, then the mapper's field update. */
  function ValidateUpdate(s: Store, m: Mapper, id: string, request: UpsertRequest): Result<Task, Error> {
    var task :- FindTask(s.tasks, id);
    var withAuthor :- ResolveAuthor(s.users, task, request.authorId);
    var withAssignee :- ResolveAssignee(s.users, withAuthor, request.assigneeId);
    Success(withAssignee.(fields := m.update(request.fields, withAssignee.fields)))
  }

  /** Every reference `update` validates exists: the task, and each supplied user id. */
  predicate UpdateResolves(s: Store, id: string, request: UpsertRequest) {
    && id in s.tasks
    && (request.authorId.Some? ==> request.authorId.value in s.users)
    && (request.assigneeId.Some? ==> request.assigneeId.value in s.users)
  }

  /** `update`. */
  function Update(s: Store, m: Mapper, id: string, request: UpsertRequest): (r: Response<HydratedTask>)
    ensures r.store.users == s.users
    ensures id !in s.tasks ==> r == Response(s, Failure(NotFound(TaskEntry, id)))
    ensures id in s.tasks && request.authorId.Some? && request.authorId.value !in s.users ==>
              r == Response(s, Failure(NotFound(AuthorUser, request.authorId.value)))
    ensures id in s.tasks && (request.authorId.Some? ==> request.authorId.value in s.users)
            && request.assigneeId.Some? && request.assigneeId.value !in s.users ==>
              r == Response(s, Failure(NotFound(AssigneeUser, request.assigneeId.value)))
    ensures UpdateResolves(s, id, request) && WellFormed(s) ==>
              && r.store.tasks.Keys == s.tasks.Keys
              && r.store.tasks[id] == s.tasks[id].(
                   authorId := Resolved(s.tasks[id].authorId, request.authorId),
                   assigneeId := Resolved(s.tasks[id].assigneeId, request.assigneeId),
                   fields := m.update(request.fields, s.tasks[id].fields))
              && (forall k :: k in s.tasks && k != id ==> r.store.tasks[k] == s.tasks[k])
    ensures r.result.Success? ==> UpdateResolves(s, id, request)
    ensures WellFormed(s) ==> WellFormed(r.store)
    ensures Consistent(s) ==> Consistent(r.store)
    ensures r.result.Success? && WellFormed(s) ==>
              && id in r.store.tasks
              && r.result.value.task == r.store.tasks[id]
              && r.result.value.author.id == r.store.tasks[id].authorId
              && r.result.value.assignee.id == r.store.tasks[id].assigneeId
    ensures Consistent(s) ==> (r.result.Success? <==> UpdateResolves(s, id, request))
    ensures UpdateResolves(s, id, request) && WellFormed(s) ==>
              r.result == FetchChildren(r.store.users, r.store.tasks[id])
  {
    Persist(s, ValidateUpdate(s, m, id, request))
  }

  /** `deleteById`: look the task up, then delete it. */
  function DeleteById(s: Store, id: string): (r: Response<()>)
    ensures r.store.users == s.users
    ensures r.result.Success? <==> id in s.tasks
    ensures id !in s.tasks ==> r == Response(s, Failure(NotFound(TaskEntry, id)))
    ensures id in s.tasks && WellFormed(s) ==> r.store.tasks == s.tasks - {id}
    ensures WellFormed(s) ==> WellFormed(r.store)
    ensures Consistent(s) ==> Consistent(r.store)
  {
    match FindTask(s.tasks, id)
    case Failure(e) => Response(s, Failure(e))
    case Success(task) => Response(Delete(s, task), Success(()))
  }

  /** The validation half of `addObserver`: the task, then the user; the
      observer id is added with set semantics. */
  function ValidateAddObserver(s: Store, taskId: string, observerId: string): Result<Task, Error> {
    var task :- FindTask(s.tasks, taskId);
    var user :- FindUser(s.users, ObserverUser, observerId);
    Success(task.(observerIds := task.observerIds + {user.id}))
  }

  /** `addObserver`. */
  function AddObserver(s: Store, taskId: string, observerId: string): (r: Response<HydratedTask>)
    ensures r.store.users == s.users
    ensures taskId !in s.tasks ==> r == Response(s, Failure(NotFound(TaskEntry, taskId)))
    ensures taskId in s.tasks && observerId !in s.users ==>
              r == Response(s, Failure(NotFound(ObserverUser, observerId)))
    ensures r.result.Success? ==> taskId in s.tasks && observerId in s.users
    ensures taskId in s.tasks && observerId in s.users && WellFormed(s) ==>
              && r.store.tasks.Keys == s.tasks.Keys
              && r.store.tasks[taskId] == s.tasks[taskId].(observerIds := s.tasks[taskId].observerIds + {observerId})
              && (forall k :: k in s.tasks && k != taskId ==> r.store.tasks[k] == s.tasks[k])
    ensures WellFormed(s) ==> WellFormed(r.store)
    ensures Consistent(s) ==> Consistent(r.store)
    ensures r.result.Success? && WellFormed(s) ==>
              && taskId in r.store.tasks
              && r.result.value.task == r.store.tasks[taskId]
              && r.result.value.author.id == r.store.tasks[taskId].authorId
              && r.result.value.assignee.id == r.store.tasks[taskId].assigneeId
    ensures r.result.Success? && WellFormed(s) ==> observerId in r.result.value.task.observerIds
    ensures taskId in s.tasks && observerId in s.users && WellFormed(s) ==>
              r.result == FetchChildren(r.store.users, r.store.tasks[taskId])
    ensures r.result.Success? && WellFormed(s) ==> s.users[observerId] in r.result.value.observers
    ensures Consistent(s) ==> (r.result.Success? <==> taskId in s.tasks && observerId in s.users)
  {
    Persist(s, ValidateAddObserver(s, taskId, observerId))
  }

  /** The validation half of `removeObserver`: the task, then the user, then
      membership of the user's id among the task's observers. */
  function ValidateRemoveObserver(s: Store, taskId: string, observerId: string): Result<Task, Error> {
    var task :- FindTask(s.tasks, taskId);
    var user :- FindUser(s.users, ObserverUser, observerId);
    if user.id !in task.observerIds then Failure(NotFound(ObserverEntry, user.id))
    else Success(task.(observerIds := task.observerIds - {user.id}))
  }

  /** `removeObserver`. */
  function RemoveObserver(s: Store, taskId: string, observerId: string): (r: Response<HydratedTask>)
    ensures r.store.users == s.users
    ensures taskId !in s.tasks ==> r == Response(s, Failure(NotFound(TaskEntry, taskId)))
    ensures taskId in s.tasks && observerId !in s.users ==>
              r == Response(s, Failure(NotFound(ObserverUser, observerId)))
    ensures taskId in s.tasks && observerId in s.users && WellFormed(s)
            && observerId !in s.tasks[taskId].observerIds ==>
              r == Response(s, Failure(NotFound(ObserverEntry, observerId)))
    ensures r.result.Success? && WellFormed(s) ==>
              taskId in s.tasks && observerId in s.users && observerId in s.tasks[taskId].observerIds
    ensures taskId in s.tasks && observerId in s.users && WellFormed(s)
            && observerId in s.tasks[taskId].observerIds ==>
              && r.store.tasks.Keys == s.tasks.Keys
              && r.store.tasks[taskId] == s.tasks[taskId].(observerIds := s.tasks[taskId].observerIds - {observerId})
              && (forall k :: k in s.tasks && k != taskId ==> r.store.tasks[k] == s.tasks[k])
    ensures WellFormed(s) ==> WellFormed(r.store)
    ensures Consistent(s) ==> Consistent(r.store)
    ensures r.result.Success? && WellFormed(s) ==>
              && taskId in r.store.tasks
              && r.result.value.task == r.store.tasks[taskId]
              && r.result.value.author.id == r.store.tasks[taskId].authorId
              && r.result.value.assignee.id == r.store.tasks[taskId].assigneeId
    ensures r.result.Success? && WellFormed(s) ==> observerId !in r.result.value.task.observerIds
    ensures taskId in s.tasks && observerId in s.users && WellFormed(s)
            && observerId in s.tasks[taskId].observerIds ==>
              r.result == FetchChildren(r.store.users, r.store.tasks[taskId])
    ensures r.result.Success? && WellFormed(s) ==> s.users[observerId] !in r.result.value.observers
    ensures Consistent(s) ==>
              (r.result.Success? <==> taskId in s.tasks && observerId in s.users
                                      && observerId in s.tasks[taskId].observerIds)
  {
    Persist(s, ValidateRemoveObserver(s, taskId, observerId))
  }
}

=== FILE: task_service_properties.dfy ===
/** Properties that relate several calls of the task service, or that describe
    hydration and the store invariants in terms independent of the code. */
module TaskServiceProperties {
  import opened Wrappers
  import opened Entities
  import opened Repository
  import opened TaskService

  /** The users `findAllById` returns are exactly those stored under the
      requested ids: missing ids are dropped and nothing else is added. */
  lemma FoundIdsExact(users: map<string, User>, ids: set<string>)
    requires UsersKeyed(users)
    ensures Ids(FindAllById(users, ids)) == ids * users.Keys
  {
  }

  /** Hydration resolves each reference to the user with that id, and the
      observers are the stored users among the observer ids: a subset of the
      ids, empty when the ids are. */
  lemma FetchChildrenResolves(users: map<string, User>, t: Task)
    requires UsersKeyed(users)
    requires t.authorId in users && t.assigneeId in users
    ensures FetchChildren(users, t).Success?
    ensures FetchChildren(users, t).value.author.id == t.authorId
    ensures FetchChildren(users, t).value.assignee.id == t.assigneeId
    ensures Ids(FetchChildren(users, t).value.observers) == t.observerIds * users.Keys
    ensures Ids(FetchChildren(users, t).value.observers) <= t.observerIds
    ensures t.observerIds == {} ==> FetchChildren(users, t).value.observers == {}
  {
  }

  /** When every referenced user exists, the hydrated observers carry exactly
      the task's observer ids. */
  lemma FetchChildrenComplete(users: map<string, User>, t: Task)
    requires UsersKeyed(users)
    requires t.authorId in users && t.assigneeId in users && t.observerIds <= users.Keys
    ensures FetchChildren(users, t).Success?
    ensures Ids(FetchChildren(users, t).value.observers) == t.observerIds
  {
  }

  /** `create` never reads the requested assignee: the assignee is looked up
      with the author id. */
  lemma CreateIgnoresRequestedAssignee(s: Store, m: Mapper, request: UpsertRequest, newId: string,
                                       assigneeId: Option<string>)
    ensures Create(s, m, request.(assigneeId := assigneeId), newId) == Create(s, m, request, newId)
  {
  }

  /** A create under a fresh id adds exactly one task and touches no other. */
  lemma CreateInsertsOne(s: Store, m: Mapper, request: UpsertRequest, newId: string)
    requires WellFormed(s) && newId !in s.tasks
    requires request.authorId.Some? && request.authorId.value in s.users
    ensures Create(s, m, request, newId).store.tasks.Keys == s.tasks.Keys + {newId}
    ensures |Create(s, m, request, newId).store.tasks| == |s.tasks| + 1
    ensures forall k :: k in s.tasks ==> Create(s, m, request, newId).store.tasks[k] == s.tasks[k]
  {
  }

  /** What `create` saved is what `findById` then returns. */
  lemma CreateThenFind(s: Store, m: Mapper, request: UpsertRequest, newId: string)
    requires WellFormed(s)
    requires Create(s, m, request, newId).result.Success?
    ensures FindById(Create(s, m, request, newId).store, newId) == Create(s, m, request, newId).result
  {
  }

  /** `update` saves before it hydrates: when the request omits the author and
      the stored author no longer exists, the update reports the missing author
      yet its field changes are already in the store. */
  lemma UpdateCommitsBeforeHydrating(s: Store, m: Mapper, id: string, request: UpsertRequest)
    requires WellFormed(s) && id in s.tasks
    requires request.authorId.None? && request.assigneeId.None?
    requires s.tasks[id].authorId !in s.users
    ensures Update(s, m, id, request).result == Failure(NotFound(AuthorUser, s.tasks[id].authorId))
    ensures Update(s, m, id, request).store.tasks[id].fields == m.update(request.fields, s.tasks[id].fields)
  {
  }

  /** Adding an observer is idempotent: a second identical call finds the store
      the first left and returns exactly what the first returned. */
  lemma AddObserverIdempotent(s: Store, taskId: string, observerId: string)
    requires WellFormed(s)
    ensures AddObserver(AddObserver(s, taskId, observerId).store, taskId, observerId)
            == AddObserver(s, taskId, observerId)
  {
  }

  /** Removing an observer that was just added restores the store, when the
      observer was not already there. */
  lemma AddThenRemoveRestores(s: Store, taskId: string, observerId: string)
    requires WellFormed(s) && taskId in s.tasks && observerId in s.users
    requires observerId !in s.tasks[taskId].observerIds
    ensures RemoveObserver(AddObserver(s, taskId, observerId).store, taskId, observerId).store == s
  {
  }

  /** Adding back an observer that was just removed restores the store. */
  lemma RemoveThenAddRestores(s: Store, taskId: string, observerId: string)
    requires WellFormed(s) && taskId in s.tasks && observerId in s.users
    requires observerId in s.tasks[taskId].observerIds
    ensures AddObserver(RemoveObserver(s, taskId, observerId).store, taskId, observerId).store == s
  {
    var task := s.tasks[taskId];
    var removed := RemoveObserver(s, taskId, observerId).store;
    assert (task.observerIds - {observerId}) + {observerId} == task.observerIds;
    assert removed.tasks[taskId := task] == s.tasks;
  }

  /** Removal is not idempotent, unlike addition: a second identical removal
      reports the observer as absent from the task and saves nothing. */
  lemma RemoveObserverTwiceFails(s: Store, taskId: string, observerId: string)
    requires WellFormed(s) && taskId in s.tasks && observerId in s.users
    requires observerId in s.tasks[taskId].observerIds
    ensures var once := RemoveObserver(s, taskId, observerId).store;
            RemoveObserver(once, taskId, observerId) == Response(once, Failure(NotFound(ObserverEntry, observerId)))
  {
  }

  /** After a delete the task can no longer be found or deleted again. */
  lemma DeleteThenFindFails(s: Store, id: string)
    requires WellFormed(s) && id in s.tasks
    ensures FindById(DeleteById(s, id).store, id) == Failure(NotFound(TaskEntry, id))
    ensures DeleteById(DeleteById(s, id).store, id).result == Failure(NotFound(TaskEntry, id))
  {
  }

  /** In a consistent store reading a stored task never fails, and it resolves
      the task's own author and assignee. */
  lemma ConsistentReadsSucceed(s: Store, id: string)
    requires Consistent(s) && id in s.tasks
    ensures FindById(s, id).Success?
    ensures FindById(s, id).value.task == s.tasks[id]
    ensures FindById(s, id).value.author.id == s.tasks[id].authorId
    ensures FindById(s, id).value.assignee.id == s.tasks[id].assigneeId
  {
  }
}

=== FILE: wrappers.dfy ===
/** Optional values and failure-compatible results, used with `:-` to model the
    `switchIfEmpty(Mono.error(...))` short-circuit of the reactive pipelines. */
module Wrappers {

  /** A value that may be absent: a nullable request field. */
  datatype Option<+T> = None | Some(value: T)

  /** Either the value a pipeline emits or the error it signals. */
  datatype Result<+T, +E> = Success(value: T) | Failure(error: E) {

    predicate IsFailure() {
      Failure?
    }

    function PropagateFailure<U>(): Result<U, E>
      requires Failure?
    {
      Failure(error)
    }

    function Extract(): T
      requires Success?
    {
      value
    }
  }
}
